=== FILE: README.md ===
# To-do list task store, in Dafny

A model of the logic of a single-page Arabic to-do list (`script.js`). The page keeps an
ordered list of task records (id, text, priority, completed flag, creation timestamp) and a
current filter. Five user operations act on them: add, toggle, delete, edit and filter. The
page also derives the rows it shows and three counters (total, completed, pending), and it
saves the whole list to one `localStorage` slot after every change.

Layout:

- `wrappers.dfy` (`Wrappers`): the `Option` type, used for a cancelled prompt and an empty storage slot.
- `js_text.dfy` (`JsText`): JavaScript `String.prototype.trim` and `length`. Trim strips the
  WhiteSpace and LineTerminator code points of ECMA-262 (sections 12.2 and 12.3). `length`
  counts UTF-16 code units, so a character outside the Basic Multilingual Plane counts two.
- `sequences.dfy` (`Sequences`): `Array.prototype.filter` as an order-preserving `Keep`, and
  what it guarantees.
- `task_store.dfy` (`TaskStore`): the `Task` record and `addTask`, `toggleTask`, `deleteTask`,
  `editTask`, the filter predicate of `renderTasks`, and the counters of `updateStats`. Each
  operation returns the new list and an `Outcome`:
  - `Rejected(error)`: an error notification and no change;
  - `Untouched`: nothing happens;
  - `Saved(notice)`: the list is saved, and the notice, if any, is shown.
- `todo_app.dfy` (`TodoApp`): the page state, which is the list, `currentFilter` and the
  storage slot. It also holds `loadTasks`, one `Dispatch` per user action, and the invariants
  the actions keep.

Browser inputs are parameters:

- the text box and priority select values are strings;
- `Date.now()` and `toISOString()` become an id and a timestamp given by the caller;
- the `confirm` answer is a `bool`;
- the `prompt` answer is an `Option<string>`, with `None` for a cancelled prompt.

Behaviour of the code worth knowing:

- `addTask` stores the priority select's value as it is (script.js:59). The reset of the select to "normal" after an add (script.js:69) is interface plumbing, left to the caller.
- `editTask` does not apply the 50-unit limit of `addTask` (script.js:104-105), so a stored text can be longer than 50 units. `TaskStore.EditIgnoresLengthLimit` exhibits one. Every stored text does stay trimmed and non-empty.
- `deleteTask` removes every task with the id (script.js:92). It removes exactly one when ids are unique and some task has that id (`TaskStore.DeleteUniqueRemovesOne`).
- A confirmed delete saves the list and shows its notice even when no task has the id (script.js:91-95).
- The 50 limit counts UTF-16 code units, as JavaScript's `length` does, not characters (script.js:51).

## Model

| member | source | states |
|---|---|---|
| JsText.Trim | script.js:44 | `trim` drops only leading and trailing white space. The result is empty exactly when the input is all white space, and otherwise it starts and ends with a non-space character. |
| JsText.TrimUnique | script.js:44 | Trim is the one slice of the input that loses only white space around it and has no white space at either end. |
| JsText.TrimIdempotent | script.js:104-105 | Trimming a trimmed text changes nothing, so stored texts are fixed points of trim. |
| JsText.TrimIgnoresPadding | script.js:44 | White space added on either side of the input does not change what is stored. |
| JsText.Utf16Length | script.js:51 | `length` is between the number of characters and twice it, and equals it exactly when every character is in the Basic Multilingual Plane. |
| JsText.Utf16LengthAppend | script.js:51 | `length` of a concatenation is the sum of the lengths. |
| Sequences.Keep | script.js:92 | `filter` returns only elements of the input that pass the predicate, and every passing element appears in it; the result is never longer than the input. |
| Sequences.KeepIsSubsequence | script.js:92 | `filter` keeps the surviving elements in their original relative order. |
| Sequences.KeepCounts | script.js:92 | `filter` keeps every occurrence of a passing element and none of a failing one. |
| Sequences.KeepAppend | script.js:92 | Filtering a concatenation is the concatenation of the filtered parts; used for the filter at line 92 applied to the list built by `unshift` at line 64. |
| Sequences.KeepAll | script.js:118 | A filter every element passes returns the whole sequence. |
| Sequences.KeepPartition | script.js:144-145 | Filtering by a predicate and by its negation splits the sequence. Multiplicities and lengths add up to the original's. |
| TaskStore.FindIndex | script.js:77 | `find` gives the first position holding the id, and gives none exactly when no task has it. |
| TaskStore.FindIndexIsFirstMatch | script.js:77 | `find` returns the first position holding the id, whichever position that is. |
| TaskStore.AddTask | script.js:43-73 | Empty-after-trim input is rejected with `EmptyText`, and over-50-unit input with `TextTooLong`; both leave the list as it was. Otherwise exactly one pending task with the trimmed text, given priority, id and timestamp goes first, followed by the old list unchanged. |
| TaskStore.ToggleTask | script.js:76-87 | Only the first task with the id has `completed` flipped; every other task is unchanged. A present id always saves; an unknown id does nothing. The completion notice appears exactly when the task was pending. |
| TaskStore.ToggleTwice | script.js:76-87 | Toggling the same id twice restores the original list. |
| TaskStore.AddThenDeleteRestores | script.js:56-64 | Deleting a task that was just added with a fresh id gives back the list from before the add. |
| TaskStore.DeleteTask | script.js:90-97 | A declined confirmation changes nothing. A confirmed one saves a list with no task of that id that still holds every other task. |
| TaskStore.DeleteKeepsOthersInOrder | script.js:92 | The remaining tasks keep their relative order and multiplicity, and every task with the id is gone. |
| TaskStore.DeleteAbsentId | script.js:90-97 | Deleting an id no task has leaves the list as it was. |
| TaskStore.DeleteUniqueRemovesOne | script.js:92 | With unique ids, deleting a present id shortens the list by exactly one. |
| TaskStore.EditTask | script.js:100-111 | Only the first task with the id gets the trimmed answer as its text. Its id, priority, completed flag and timestamp stay. A cancelled prompt, an all-white-space answer or an unknown id changes nothing. |
| TaskStore.EditUpdatesFirstMatch | script.js:101-105 | An accepted edit is one in-place update of the first task with the id. |
| TaskStore.EditThenRevert | script.js:100-111 | Editing a task back to its previous text undoes the edit, whatever the first answer was. |
| TaskStore.EditIgnoresLengthLimit | script.js:100-111 | An edit can store a text longer than `addTask` accepts. |
| TaskStore.ShowsComplementary | script.js:116-118 | Every task is shown by exactly one of the "pending" and "completed" filters, and by every other filter value, including "all". |
| TaskStore.View | script.js:115-119 | The view holds exactly the list's tasks that the filter shows. |
| TaskStore.ViewKeepsOrder | script.js:115-119 | Every view lists its tasks in list order. |
| TaskStore.ViewAllIsWholeList | script.js:118 | The "all" filter, or any value other than "pending" and "completed", shows the whole list. |
| TaskStore.ViewsPartition | script.js:115-119 | The pending and completed views share no task and together hold every task as often as the list does. |
| TaskStore.ComputeStats | script.js:142-146 | The total is the list length, the sum of completed and pending, and each counter is the size of its view. |
| TaskStore.AddKeepsCleanTexts | script.js:44-58 | An add keeps every text trimmed and non-empty. |
| TaskStore.EditKeepsCleanTexts | script.js:104-105 | An edit keeps every text trimmed and non-empty. |
| TaskStore.ToggleKeepsCleanTexts | script.js:79 | A toggle keeps every text trimmed and non-empty. |
| TaskStore.DeleteKeepsCleanTexts | script.js:92 | A delete keeps every text trimmed and non-empty. |
| TodoApp.ReloadShowsSession | script.js:27-40 | Starting from any saved snapshot (loaded by the `if (savedTasks)` branch, or the empty list) and after any sequence of actions, reloading the page shows exactly the list the session shows. |
| TodoApp.Dispatch | script.js:27-30 | The list is saved exactly when an operation reports `Saved`, and the slot then holds the new list. Any other outcome leaves both the list and the slot unchanged. Only the filter action changes the filter. Add, toggle, delete and edit each give exactly the list and outcome of the matching store operation. |
| TodoApp.Visible | script.js:115-119 | The rows shown are exactly the list's tasks that the current filter shows, in list order. |
| TodoApp.RunKeepsSynced | script.js:27-40 | After any sequence of actions, the list shown is the list a reload would show. |
| TodoApp.FilterChangesOnlyFilter | script.js:149-157 | `filterTasks` changes the filter and the rows shown, but not the list, the slot or the counters. |
| TodoApp.DispatchKeepsCleanTexts | script.js:43-111 | Every action keeps all task texts trimmed and non-empty. |
| TodoApp.DispatchKeepsLimit | script.js:51-54 | Every action except an edit keeps all texts within 50 code units. |
| TodoApp.DispatchKeepsUniqueIds | script.js:57 | Ids stay unique under every action, provided a new task's clock-reading id is not already in use. |
| TodoApp.SubsequenceKeepsUniqueIds | script.js:92 | Deleting tasks cannot make ids collide. |

## Left out

- HTML generation in `renderTasks`, `escapeHtml`, `formatDate`, `showNotification` with its styles and timers, the CSS keyframes, and the event-listener wiring and input reset/focus, including the reset of the priority select to "normal" after an add (script.js:68-70). These are presentation through browser and locale APIs, so they are not modelled. An operation's `Outcome` records only which notification it would show.
- JSON serialisation in `saveTasks`/`loadTasks`: the storage slot holds the list itself, so the JSON round trip is taken as exact. Malformed stored data, which `JSON.parse` would throw on, is not modelled.
- A failing `localStorage.setItem` is not modelled: every save is assumed to succeed. A failed write would leave `tasks` changed and the slot unchanged, and would skip rendering and the notification. So `TodoApp.Dispatch`'s saved-slot clause and `TodoApp.RunKeepsSynced` hold only when every save succeeds.
- TodoApp.RunKeepsSynced: the storage slot is assumed to be written only by this page instance. `localStorage` is shared by every tab of the origin and the page registers no `storage` listener, so another tab's save would make a reload show that tab's list instead.
- `editingTaskId` (script.js:13) is declared but never used, so it is not modelled.
- Id freshness: `Date.now()` does not guarantee a new id. The model keeps the source's first-match (toggle, edit) and all-match (delete) behaviour. Fresh or unique ids are assumed only by three lemmas: `TodoApp.DispatchKeepsUniqueIds` (a new id is not in use), `TaskStore.AddThenDeleteRestores` (the added id is not in use) and `TaskStore.DeleteUniqueRemovesOne` (all ids are unique).
- Unpaired surrogates: a JavaScript string may hold a lone UTF-16 surrogate, which `length` counts as one code unit. A Dafny `char` is a Unicode scalar value, so input holding an unpaired surrogate is not modelled.

=== FILE: js_text.dfy ===
/**
  The two pieces of JavaScript string semantics the task store relies on:
  String.prototype.trim (section 22.1.3.32 of ECMA-262) and the `length`
  property, which counts UTF-16 code units rather than characters.
  A Dafny `char` is a Unicode scalar value.
*/
module JsText {

  /** The code points `trim` strips: WhiteSpace (section 12.2 of ECMA-262,
      including every space separator of Unicode category Zs) and
      LineTerminator (section 12.3). */
  predicate IsJsSpace(c: char) {
    || c == '\t' || c == '\U{000B}' || c == '\U{000C}' || c == ' '
    || c == '\U{00A0}' || c == '\U{FEFF}' || c == '\U{1680}'
    || ('\U{2000}' <= c <= '\U{200A}')
    || c == '\U{202F}' || c == '\U{205F}' || c == '\U{3000}'
    || c == '\n' || c == '\r' || c == '\U{2028}' || c == '\U{2029}'
  }

  /** Every character of s is white space (vacuously true of ""). */
  predicate AllSpace(s: string) {
    forall i :: 0 <= i < |s| ==> IsJsSpace(s[i])
  }

  /** The number of white-space characters at the front of s. */
  function LeadingSpaces(s: string): (k: nat)
    ensures k <= |s|
    ensures forall i :: 0 <= i < k ==> IsJsSpace(s[i])
    ensures k < |s| ==> !IsJsSpace(s[k])
  {
    if |s| > 0 && IsJsSpace(s[0]) then 1 + LeadingSpaces(s[1..]) else 0
  }

  /** The number of white-space characters at the end of s. */
  function TrailingSpaces(s: string): (k: nat)
    ensures k <= |s|
    ensures forall i :: |s| - k <= i < |s| ==> IsJsSpace(s[i])
    ensures k < |s| ==> !IsJsSpace(s[|s| - k - 1])
  {
    if |s| > 0 && IsJsSpace(s[|s| - 1]) then 1 + TrailingSpaces(s[..|s| - 1]) else 0
  }

  /** `s.trim()`: s without its leading and trailing white space. */
  function Trim(s: string): (r: string)
    ensures |r| <= |s|
    ensures r == [] <==> AllSpace(s)
    ensures r != [] ==> !IsJsSpace(r[0]) && !IsJsSpace(r[|r| - 1])
    ensures LeadingSpaces(s) + |r| <= |s|
    ensures r == s[LeadingSpaces(s)..LeadingSpaces(s) + |r|]
    ensures AllSpace(s[LeadingSpaces(s) + |r|..])
  {
    var t := s[LeadingSpaces(s)..];
    t[..|t| - TrailingSpaces(t)]
  }

  /** Trim(s) is the only slice s[lo..hi] that drops nothing but white space
      around it and neither starts nor ends with white space: the property
      that defines `trim`, independently of how Trim computes it. */
  lemma {:induction false} TrimUnique(s: string, lo: nat, hi: nat)
    requires lo <= hi <= |s|
    requires AllSpace(s[..lo]) && AllSpace(s[hi..])
    requires lo < hi ==> !IsJsSpace(s[lo]) && !IsJsSpace(s[hi - 1])
    ensures Trim(s) == s[lo..hi]
  {
    var r := Trim(s);
    var k := LeadingSpaces(s);
    if lo == hi {
      forall i | 0 <= i < |s|
        ensures IsJsSpace(s[i])
      {
        if i < lo {
          assert s[..lo][i] == s[i];
        } else {
          assert s[hi..][i - hi] == s[i];
        }
      }
    } else {
      forall i | 0 <= i < lo
        ensures IsJsSpace(s[i])
      {
        assert s[..lo][i] == s[i];
      }
      forall i | hi <= i < |s|
        ensures IsJsSpace(s[i])
      {
        assert s[hi..][i - hi] == s[i];
      }
      assert k == lo;
      var e := lo + |r|;
      forall i | e <= i < |s|
        ensures IsJsSpace(s[i])
      {
        assert s[e..][i - e] == s[i];
      }
      assert r != [];
      assert r[|r| - 1] == s[e - 1];
    }
  }

  /** Trimming an already-trimmed string changes nothing. */
  lemma TrimIdempotent(s: string)
    ensures Trim(Trim(s)) == Trim(s)
  {
    var r := Trim(s);
    TrimUnique(r, 0, |r|);
  }

  /** Padding a string with white space on either side does not change its trim. */
  lemma TrimIgnoresPadding(pre: string, s: string, post: string)
    requires AllSpace(pre) && AllSpace(post)
    ensures Trim(pre + s + post) == Trim(s)
  {
    var r := Trim(s);
    var k := LeadingSpaces(s);
    var lo := |pre| + k;
    var hi := lo + |r|;
    var w := pre + s + post;
    assert w[lo..hi] == r;
    forall i | 0 <= i < lo
      ensures IsJsSpace(w[..lo][i])
    {
      if i >= |pre| {
        assert w[i] == s[i - |pre|];
      }
    }
    forall i | 0 <= i < |w| - hi
      ensures IsJsSpace(w[hi..][i])
    {
      if hi + i < |pre| + |s| {
        assert w[hi + i] == s[k + |r| + i];
        assert s[k + |r|..][i] == s[k + |r| + i];
      } else {
        assert w[hi + i] == post[hi + i - |pre| - |s|];
      }
    }
    TrimUnique(w, lo, hi);
  }

  /** The UTF-16 code units one character takes: two for a character
      outside the Basic Multilingual Plane (a surrogate pair), else one. */
  function CodeUnits(c: char): nat {
    if c as int > 0xFFFF then 2 else 1
  }

  /** `s.length` in JavaScript: the number of UTF-16 code units of s. */
  function Utf16Length(s: string): (n: nat)
    ensures |s| <= n <= 2 * |s|
    ensures n == |s| <==> forall i :: 0 <= i < |s| ==> s[i] as int <= 0xFFFF
  {
    if s == [] then 0 else CodeUnits(s[0]) + Utf16Length(s[1..])
  }

  /** `length` adds up over concatenation. */
  lemma {:induction false} Utf16LengthAppend(a: string, b: string)
    ensures Utf16Length(a + b) == Utf16Length(a) + Utf16Length(b)
  {
    if a == [] {
      assert a + b == b;
    } else {
      assert (a + b)[1..] == a[1..] + b;
      Utf16LengthAppend(a[1..], b);
    }
  }
}

=== FILE: sequences.dfy ===
/** Order-preserving filtering of sequences: JavaScript's `Array.prototype.filter`. */
module Sequences {

  /** r can be obtained from s by deleting elements, without reordering the rest. */
  ghost predicate IsSubsequence<T>(r: seq<T>, s: seq<T>)
    decreases |s|
  {
    if r == [] then true
    else if s == [] then false
    else (r[0] == s[0] && IsSubsequence(r[1..], s[1..])) || IsSubsequence(r, s[1..])
  }

  /** `s.filter(p)`: the elements of s that satisfy p, in their original order. */
  function Keep<T>(s: seq<T>, p: T -> bool): (r: seq<T>)
    ensures |r| <= |s|
    ensures forall i :: 0 <= i < |r| ==> r[i] in s && p(r[i])
    ensures forall i :: 0 <= i < |s| && p(s[i]) ==> s[i] in r
  {
    if s == [] then [] else (if p(s[0]) then [s[0]] else []) + Keep(s[1..], p)
  }

  /** The filter keeps the list order: its result is a subsequence of s. */
  lemma {:induction false} KeepIsSubsequence<T>(s: seq<T>, p: T -> bool)
    ensures IsSubsequence(Keep(s, p), s)
  {
    if s != [] {
      KeepIsSubsequence(s[1..], p);
      var rest := Keep(s[1..], p);
      if p(s[0]) {
        assert Keep(s, p) == [s[0]] + rest;
        assert Keep(s, p)[1..] == rest;
      } else {
        assert Keep(s, p) == rest;
        if rest != [] {
          assert IsSubsequence(rest, s[1..]);
        }
      }
    }
  }

  /** The filter keeps every occurrence of a satisfying element and no
      occurrence of any other: together with KeepIsSubsequence this pins
      Keep(s, p) down completely. */
  lemma {:induction false} KeepCounts<T>(s: seq<T>, p: T -> bool, x: T)
    ensures multiset(Keep(s, p))[x] == if p(x) then multiset(s)[x] else 0
  {
    if s != [] {
      KeepCounts(s[1..], p, x);
      assert s == [s[0]] + s[1..];
      assert multiset(s) == multiset([s[0]]) + multiset(s[1..]);
    }
  }

  /** Filtering a concatenation filters each part and concatenates the results. */
  lemma {:induction false} KeepAppend<T>(a: seq<T>, b: seq<T>, p: T -> bool)
    ensures Keep(a + b, p) == Keep(a, p) + Keep(b, p)
  {
    if a == [] {
      assert a + b == b;
    } else {
      assert (a + b)[1..] == a[1..] + b;
      KeepAppend(a[1..], b, p);
    }
  }

  /** A filter that every element passes returns the sequence itself. */
  lemma {:induction false} KeepAll<T>(s: seq<T>, p: T -> bool)
    requires forall i :: 0 <= i < |s| ==> p(s[i])
    ensures Keep(s, p) == s
  {
    if s != [] {
      KeepAll(s[1..], p);
    }
  }

  /** Filters that agree on every element of s give the same result. */
  lemma {:induction false} KeepAgree<T>(s: seq<T>, p: T -> bool, q: T -> bool)
    requires forall i :: 0 <= i < |s| ==> p(s[i]) == q(s[i])
    ensures Keep(s, p) == Keep(s, q)
  {
    if s != [] {
      KeepAgree(s[1..], p, q);
    }
  }

  /** Filtering by p and by its negation q splits s: the two results
      together hold every element of s exactly as often as s does. */
  lemma KeepPartition<T>(s: seq<T>, p: T -> bool, q: T -> bool)
    requires forall x :: q(x) == !p(x)
    ensures multiset(Keep(s, p)) + multiset(Keep(s, q)) == multiset(s)
    ensures |Keep(s, p)| + |Keep(s, q)| == |s|
  {
    var kp, kq := Keep(s, p), Keep(s, q);
    forall x
      ensures (multiset(kp) + multiset(kq))[x] == multiset(s)[x]
    {
      KeepCounts(s, p, x);
      KeepCounts(s, q, x);
    }
    assert multiset(kp) + multiset(kq) == multiset(s);
    assert |multiset(kp)| == |kp| && |multiset(kq)| == |kq| && |multiset(s)| == |s|;
  }

  /** Every element of a subsequence is an element of the sequence. */
  lemma {:induction false} SubsequenceMembers<T>(r: seq<T>, s: seq<T>)
    requires IsSubsequence(r, s)
    ensures forall k :: 0 <= k < |r| ==> exists m :: 0 <= m < |s| && s[m] == r[k]
    decreases |s|
  {
    if r != [] {
      if r[0] == s[0] && IsSubsequence(r[1..], s[1..]) {
        SubsequenceMembers(r[1..], s[1..]);
        forall k | 1 <= k < |r|
          ensures exists m :: 0 <= m < |s| && s[m] == r[k]
        {
          assert r[1..][k - 1] == r[k];
          var m :| 0 <= m < |s[1..]| && s[1..][m] == r[k];
          assert s[m + 1] == r[k];
        }
        assert s[0] == r[0];
      } else {
        SubsequenceMembers(r, s[1..]);
        forall k | 0 <= k < |r|
          ensures exists m :: 0 <= m < |s| && s[m] == r[k]
        {
          var m :| 0 <= m < |s[1..]| && s[1..][m] == r[k];
          assert s[m + 1] == r[k];
        }
      }
    }
  }
}

=== FILE: task_store.dfy ===
/**
  The task list of the to-do page and the operations that change it:
  adding, completing, deleting and editing a task, and the derived reads
  (the filtered view and the three counters). Browser inputs are
  parameters: the text box and priority select values, the clock's id and
  ISO timestamp, the `confirm` answer and the `prompt` answer.
*/
module TaskStore {
  import opened Wrappers
  import opened JsText
  import opened Sequences

  /** The longest task text `addTask` accepts, in UTF-16 code units. */
  const MaxTextLength: nat := 50

  /** One task record as the page stores it. */
  datatype Task = Task(id: int, text: string, priority: string, completed: bool, createdAt: string)

  /** Why `addTask` refused the input box value. */
  datatype AddError = EmptyText | TextTooLong

  /** The notification an operation shows after saving. */
  datatype Notice = Added | Done | Deleted | Edited

  /** What an operation did: refused with an error notification, did nothing
      at all, or saved the list (showing the notice, if any). */
  datatype Outcome = Rejected(error: AddError) | Untouched | Saved(notice: Option<Notice>)

  /** The task list after an operation, with what the operation did. */
  datatype Step = Step(tasks: seq<Task>, outcome: Outcome)

  /** Some task in the list has this id. */
  predicate HasId(tasks: seq<Task>, id: int) {
    exists i :: 0 <= i < |tasks| && tasks[i].id == id
  }

  /** i is the position of the first task with this id: the one `find` returns. */
  predicate IsFirstMatch(tasks: seq<Task>, id: int, i: int) {
    0 <= i < |tasks| && tasks[i].id == id && forall j :: 0 <= j < i ==> tasks[j].id != id
  }

  /** No two tasks share an id. */
  predicate UniqueIds(tasks: seq<Task>) {
    forall i, j :: 0 <= i < j < |tasks| ==> tasks[i].id != tasks[j].id
  }

  /** `tasks.find(t => t.id === id)`, as a position. */
  function FindIndex(tasks: seq<Task>, id: int): (r: Option<nat>)
    ensures r.Some? ==> IsFirstMatch(tasks, id, r.value)
    ensures r.None? <==> !HasId(tasks, id)
  {
    if tasks == [] then None
    else if tasks[0].id == id then Some(0)
    else match FindIndex(tasks[1..], id)
      case None => None
      case Some(i) => Some(i + 1)
  }

  /** `addTask`: trim the input box value; refuse it when nothing is left or
      when it is longer than 50 code units; otherwise put a new pending task
      at the front of the list. */
  function AddTask(tasks: seq<Task>, input: string, priority: string, id: int, createdAt: string): (r: Step)
    ensures r.outcome == Rejected(EmptyText) <==> AllSpace(input)
    ensures r.outcome == Rejected(TextTooLong) <==> !AllSpace(input) && Utf16Length(Trim(input)) > MaxTextLength
    ensures r.outcome.Rejected? ==> r.tasks == tasks
    ensures !r.outcome.Rejected? ==>
      && r.outcome == Saved(Some(Added))
      && |r.tasks| == |tasks| + 1
      && r.tasks[0] == Task(id, Trim(input), priority, false, createdAt)
      && r.tasks[1..] == tasks
  {
    var text := Trim(input);
    if text == [] then Step(tasks, Rejected(EmptyText))
    else if Utf16Length(text) > MaxTextLength then Step(tasks, Rejected(TextTooLong))
    else Step([Task(id, text, priority, false, createdAt)] + tasks, Saved(Some(Added)))
  }

  /** `toggleTask`: flip `completed` on the first task with this id. A task
      that becomes completed earns a notification; one that becomes pending
      does not. An unknown id does nothing. */
  function ToggleTask(tasks: seq<Task>, id: int): (r: Step)
    ensures |r.tasks| == |tasks|
    ensures r.outcome == Untouched <==> !HasId(tasks, id)
    ensures r.outcome == Untouched ==> r.tasks == tasks
    ensures HasId(tasks, id) ==> r.outcome.Saved?
    ensures forall k :: 0 <= k < |tasks| ==>
      r.tasks[k] == if IsFirstMatch(tasks, id, k) then tasks[k].(completed := !tasks[k].completed) else tasks[k]
    ensures r.outcome == Saved(Some(Done)) <==> exists k :: IsFirstMatch(tasks, id, k) && !tasks[k].completed
    ensures r.outcome.Saved? ==> r.outcome.notice == Some(Done) || r.outcome.notice == None
  {
    match FindIndex(tasks, id)
    case None => Step(tasks, Untouched)
    case Some(i) =>
      var t := tasks[i].(completed := !tasks[i].completed);
      Step(tasks[i := t], Saved(if t.completed then Some(Done) else None))
  }

  /** `deleteTask`: once the user confirms, keep only the tasks whose id
      differs. The list is saved and the notice shown whenever the user
      confirms, even when no task had the id. */
  function DeleteTask(tasks: seq<Task>, id: int, confirmed: bool): (r: Step)
    ensures !confirmed ==> r == Step(tasks, Untouched)
    ensures confirmed ==> r.outcome == Saved(Some(Deleted))
    ensures confirmed ==> forall k :: 0 <= k < |r.tasks| ==> r.tasks[k].id != id
    ensures confirmed ==> forall k :: 0 <= k < |tasks| && tasks[k].id != id ==> tasks[k] in r.tasks
    ensures forall k :: 0 <= k < |r.tasks| ==> r.tasks[k] in tasks
  {
    if confirmed then Step(Keep(tasks, (t: Task) => t.id != id), Saved(Some(Deleted)))
    else Step(tasks, Untouched)
  }

  /** `editTask`: for the first task with this id, replace its text with the
      trimmed prompt answer. A cancelled prompt, an answer of white space
      only, or an unknown id changes nothing. The 50-unit limit of
      `addTask` is not applied here. */
  function EditTask(tasks: seq<Task>, id: int, answer: Option<string>): (r: Step)
    ensures |r.tasks| == |tasks|
    ensures r.outcome == Untouched <==> !HasId(tasks, id) || answer.None? || AllSpace(answer.value)
    ensures r.outcome == Untouched ==> r.tasks == tasks
    ensures r.outcome != Untouched ==>
      && r.outcome == Saved(Some(Edited))
      && forall k :: 0 <= k < |tasks| ==>
           r.tasks[k] == if IsFirstMatch(tasks, id, k) then tasks[k].(text := Trim(answer.value)) else tasks[k]
  {
    match FindIndex(tasks, id)
    case None => Step(tasks, Untouched)
    case Some(i) =>
      if answer.None? || Trim(answer.value) == [] then Step(tasks, Untouched)
      else Step(tasks[i := tasks[i].(text := Trim(answer.value))], Saved(Some(Edited)))
  }

  /** The filter predicate of `renderTasks`: "pending" shows pending tasks,
      "completed" shows completed ones, and any other filter value shows all. */
  predicate Shows(filter: string, t: Task) {
    if filter == "pending" then !t.completed
    else if filter == "completed" then t.completed
    else true
  }

  /** The `t => t.completed` callback of the completed counter. */
  predicate IsDone(t: Task) { t.completed }

  /** The `t => !t.completed` callback of the pending counter. */
  predicate IsPending(t: Task) { !t.completed }

  /** Every task is shown by exactly one of the "pending" and "completed"
      filters, and by every other filter value. */
  lemma ShowsComplementary(filter: string, t: Task)
    ensures Shows("pending", t) != Shows("completed", t)
    ensures filter != "pending" && filter != "completed" ==> Shows(filter, t)
  {
  }

  /** The tasks `renderTasks` lists under this filter, in list order. */
  function View(tasks: seq<Task>, filter: string): (r: seq<Task>)
    ensures forall k :: 0 <= k < |r| ==> r[k] in tasks && Shows(filter, r[k])
    ensures forall k :: 0 <= k < |tasks| && Shows(filter, tasks[k]) ==> tasks[k] in r
  {
    Keep(tasks, t => Shows(filter, t))
  }

  /** The three numbers `updateStats` displays. */
  datatype Stats = Stats(total: nat, completed: nat, pending: nat)

  /** `updateStats`: the list length and the sizes of the completed and
      pending filters. */
  function ComputeStats(tasks: seq<Task>): (r: Stats)
    ensures r.total == |tasks|
    ensures r.total == r.completed + r.pending
    ensures r.completed == |View(tasks, "completed")|
    ensures r.pending == |View(tasks, "pending")|
  {
    KeepPartition(tasks, IsDone, IsPending);
    KeepAgree(tasks, IsDone, t => Shows("completed", t));
    KeepAgree(tasks, IsPending, t => Shows("pending", t));
    Stats(|tasks|, |Keep(tasks, IsDone)|, |Keep(tasks, IsPending)|)
  }

  /** Toggling the same id twice gives back the original list. */
  lemma ToggleTwice(tasks: seq<Task>, id: int)
    ensures ToggleTask(ToggleTask(tasks, id).tasks, id).tasks == tasks
  {
    var once := ToggleTask(tasks, id).tasks;
    var twice := ToggleTask(once, id).tasks;
    forall k | 0 <= k < |tasks|
      ensures IsFirstMatch(once, id, k) == IsFirstMatch(tasks, id, k)
    {
      assert forall j :: 0 <= j < |tasks| ==> once[j].id == tasks[j].id;
    }
  }

  /** A confirmed delete keeps the other tasks in their original relative
      order, each exactly as often as before, and drops every task with the id. */
  lemma DeleteKeepsOthersInOrder(tasks: seq<Task>, id: int, t: Task)
    ensures IsSubsequence(DeleteTask(tasks, id, true).tasks, tasks)
    ensures multiset(DeleteTask(tasks, id, true).tasks)[t] == if t.id != id then multiset(tasks)[t] else 0
  {
    KeepIsSubsequence(tasks, (x: Task) => x.id != id);
    KeepCounts(tasks, (x: Task) => x.id != id, t);
  }

  /** A confirmed delete of an id no task has leaves the list as it was
      (though it still saves and shows its notice). */
  lemma DeleteAbsentId(tasks: seq<Task>, id: int)
    requires !HasId(tasks, id)
    ensures DeleteTask(tasks, id, true).tasks == tasks
  {
    KeepAll(tasks, (x: Task) => x.id != id);
  }

  /** When ids are unique, a confirmed delete of a present id removes exactly one task. */
  lemma {:induction false} DeleteUniqueRemovesOne(tasks: seq<Task>, id: int)
    requires UniqueIds(tasks)
    requires HasId(tasks, id)
    ensures |DeleteTask(tasks, id, true).tasks| == |tasks| - 1
  {
    var p := (x: Task) => x.id != id;
    var rest := tasks[1..];
    assert Keep(tasks, p) == (if p(tasks[0]) then [tasks[0]] else []) + Keep(rest, p);
    if tasks[0].id == id {
      assert forall i :: 0 <= i < |rest| ==> rest[i].id != id by {
        forall i | 0 <= i < |rest|
          ensures rest[i].id != id
        {
          assert rest[i] == tasks[i + 1];
        }
      }
      KeepAll(rest, p);
    } else {
      var i :| 0 <= i < |tasks| && tasks[i].id == id;
      assert rest[i - 1].id == id;
      assert UniqueIds(rest) by {
        forall a, b | 0 <= a < b < |rest|
          ensures rest[a].id != rest[b].id
        {
          assert rest[a] == tasks[a + 1] && rest[b] == tasks[b + 1];
        }
      }
      DeleteUniqueRemovesOne(rest, id);
    }
  }

  /** Every view lists its tasks in list order. */
  lemma ViewKeepsOrder(tasks: seq<Task>, filter: string)
    ensures IsSubsequence(View(tasks, filter), tasks)
  {
    KeepIsSubsequence(tasks, t => Shows(filter, t));
  }

  /** Any filter value other than "pending" and "completed" (in particular
      "all") shows the whole list. */
  lemma ViewAllIsWholeList(tasks: seq<Task>, filter: string)
    requires filter != "pending" && filter != "completed"
    ensures View(tasks, filter) == tasks
  {
    KeepAll(tasks, t => Shows(filter, t));
  }

  /** The pending and completed views share no task and together hold every
      task of the list, as often as the list does. */
  lemma ViewsPartition(tasks: seq<Task>)
    ensures multiset(View(tasks, "pending")) + multiset(View(tasks, "completed")) == multiset(tasks)
    ensures forall i, j :: 0 <= i < |View(tasks, "pending")| && 0 <= j < |View(tasks, "completed")| ==>
      View(tasks, "pending")[i] != View(tasks, "completed")[j]
  {
    KeepAgree(tasks, IsPending, t => Shows("pending", t));
    KeepAgree(tasks, IsDone, t => Shows("completed", t));
    KeepPartition(tasks, IsPending, IsDone);
  }

  /** Editing may leave a task longer than `addTask` would ever accept. */
  lemma EditIgnoresLengthLimit()
    ensures exists tasks: seq<Task>, answer: string ::
      && |tasks| == 1
      && Utf16Length(EditTask(tasks, tasks[0].id, Some(answer)).tasks[0].text) > MaxTextLength
  {
    var tasks := [Task(1, "a", "normal", false, "")];
    var answer := seq(51, i => 'a');
    assert !IsJsSpace(answer[0]) && !IsJsSpace(answer[50]);
    TrimUnique(answer, 0, 51);
    assert answer[0..51] == answer;
    var r := EditTask(tasks, 1, Some(answer));
    assert IsFirstMatch(tasks, 1, 0);
    assert r.tasks[0].text == answer;
  }

  /** A task text as `addTask` and `editTask` leave it: trimmed and not empty. */
  predicate IsCleanText(text: string) {
    text != [] && Trim(text) == text
  }

  /** Every task text is trimmed and not empty. */
  predicate CleanTexts(tasks: seq<Task>) {
    forall k :: 0 <= k < |tasks| ==> IsCleanText(tasks[k].text)
  }

  /** The text `addTask` stores is clean, and the rest of the list is kept. */
  lemma AddKeepsCleanTexts(tasks: seq<Task>, input: string, priority: string, id: int, createdAt: string)
    requires CleanTexts(tasks)
    ensures CleanTexts(AddTask(tasks, input, priority, id, createdAt).tasks)
  {
    var r := AddTask(tasks, input, priority, id, createdAt).tasks;
    if r != tasks {
      TrimIdempotent(input);
      assert IsCleanText(r[0].text);
      forall k | 1 <= k < |r|
        ensures IsCleanText(r[k].text)
      {
        assert r[k] == r[1..][k - 1] == tasks[k - 1];
      }
    }
  }

  /** The text `editTask` stores is clean. */
  lemma EditKeepsCleanTexts(tasks: seq<Task>, id: int, answer: Option<string>)
    requires CleanTexts(tasks)
    ensures CleanTexts(EditTask(tasks, id, answer).tasks)
  {
    var r := EditTask(tasks, id, answer);
    if r.outcome != Untouched {
      var i := FindIndex(tasks, id).value;
      EditUpdatesFirstMatch(tasks, id, answer.value, i);
      TrimIdempotent(answer.value);
      assert IsCleanText(r.tasks[i].text);
      forall k | 0 <= k < |r.tasks|
        ensures IsCleanText(r.tasks[k].text)
      {
        if k != i {
          assert r.tasks[k] == tasks[k];
        }
      }
    }
  }

  /** Toggling changes no text. */
  lemma ToggleKeepsCleanTexts(tasks: seq<Task>, id: int)
    requires CleanTexts(tasks)
    ensures CleanTexts(ToggleTask(tasks, id).tasks)
  {
    ToggleKeepsTexts(tasks, id);
    SameTextsKeepClean(tasks, ToggleTask(tasks, id).tasks);
  }

  /** Toggling changes no task's text. */
  lemma ToggleKeepsTexts(tasks: seq<Task>, id: int)
    ensures forall k :: 0 <= k < |tasks| ==> ToggleTask(tasks, id).tasks[k].text == tasks[k].text
  {
  }

  /** A list whose texts are those of a clean list, position by position, is clean. */
  lemma SameTextsKeepClean(tasks: seq<Task>, r: seq<Task>)
    requires CleanTexts(tasks)
    requires |r| == |tasks|
    requires forall k :: 0 <= k < |r| ==> r[k].text == tasks[k].text
    ensures CleanTexts(r)
  {
    forall k | 0 <= k < |r|
      ensures IsCleanText(r[k].text)
    {
      assert IsCleanText(tasks[k].text);
    }
  }

  /** Deleting keeps only tasks that were already in the list. */
  lemma DeleteKeepsCleanTexts(tasks: seq<Task>, id: int, confirmed: bool)
    requires CleanTexts(tasks)
    ensures CleanTexts(DeleteTask(tasks, id, confirmed).tasks)
  {
    var r := DeleteTask(tasks, id, confirmed).tasks;
    forall k | 0 <= k < |r|
      ensures IsCleanText(r[k].text)
    {
      var m :| 0 <= m < |tasks| && tasks[m] == r[k];
    }
  }

  /** Deleting a freshly added task undoes the add: the list is back as it was. */
  lemma AddThenDeleteRestores(tasks: seq<Task>, input: string, priority: string, id: int, createdAt: string)
    requires !HasId(tasks, id)
    ensures DeleteTask(AddTask(tasks, input, priority, id, createdAt).tasks, id, true).tasks == tasks
  {
    var added := AddTask(tasks, input, priority, id, createdAt).tasks;
    var p := (x: Task) => x.id != id;
    KeepAll(tasks, p);
    if added != tasks {
      assert added == [added[0]] + tasks;
      KeepAppend([added[0]], tasks, p);
    } else {
      DeleteAbsentId(tasks, id);
    }
  }

  /** The first match is unique, so `find` returns it. */
  lemma FindIndexIsFirstMatch(tasks: seq<Task>, id: int, i: nat)
    requires IsFirstMatch(tasks, id, i)
    ensures FindIndex(tasks, id) == Some(i)
  {
    assert HasId(tasks, id);
  }

  /** A successful edit is a single update at the first match. */
  lemma EditUpdatesFirstMatch(tasks: seq<Task>, id: int, answer: string, i: nat)
    requires IsFirstMatch(tasks, id, i)
    requires !AllSpace(answer)
    ensures EditTask(tasks, id, Some(answer)).tasks == tasks[i := tasks[i].(text := Trim(answer))]
  {
    FindIndexIsFirstMatch(tasks, id, i);
  }

  /** Editing a task back to its previous (trimmed, non-empty) text undoes the edit. */
  lemma EditThenRevert(tasks: seq<Task>, id: int, answer: string, i: nat)
    requires IsFirstMatch(tasks, id, i)
    requires IsCleanText(tasks[i].text)
    ensures EditTask(EditTask(tasks, id, Some(answer)).tasks, id, Some(tasks[i].text)).tasks == tasks
  {
    var t := tasks[i].text;
    assert !AllSpace(t);
    var edited := EditTask(tasks, id, Some(answer)).tasks;
    if AllSpace(answer) {
      EditUpdatesFirstMatch(tasks, id, t, i);
      assert tasks[i := tasks[i].(text := t)] == tasks;
    } else {
      EditUpdatesFirstMatch(tasks, id, answer, i);
      assert IsFirstMatch(edited, id, i);
      EditUpdatesFirstMatch(edited, id, t, i);
      assert edited[i := edited[i].(text := t)] == tasks;
    }
  }
}

=== FILE: todo_app.dfy ===
/**
  The page as a whole: the task list, the current filter, and the one
  storage slot (`localStorage` key "tasks") the list is saved to. User
  actions arrive as Action values carrying the browser inputs they read.
*/
module TodoApp {
  import opened Wrappers
  import opened JsText
  import opened TaskStore
  import opened Sequences

  /** The page state: `tasks`, `currentFilter`, and the saved snapshot
      (None while nothing has been saved). */
  datatype App = App(tasks: seq<Task>, filter: string, stored: Option<seq<Task>>)

  /** One user action with the browser inputs it consumes. */
  datatype Action =
    | AddAction(input: string, priority: string, id: int, createdAt: string)
    | ToggleAction(id: int)
    | DeleteAction(id: int, confirmed: bool)
    | EditAction(id: int, answer: Option<string>)
    | FilterAction(filter: string)

  /** The new page state and what the action did. */
  datatype Reply = Reply(app: App, outcome: Outcome)

  /** The list a page reload would show: the saved snapshot, or the empty
      list when nothing was saved. */
  function Reloaded(stored: Option<seq<Task>>): seq<Task> {
    stored.GetOr([])
  }

  /** The in-memory list is what a reload would show. */
  predicate Synced(a: App) {
    a.tasks == Reloaded(a.stored)
  }

  /** `loadTasks` at start-up: the saved list if there is one, the "all" filter. */
  function Load(stored: Option<seq<Task>>): App {
    App(Reloaded(stored), "all", stored)
  }

  /** `saveTasks` is called exactly when the outcome is Saved: then the slot
      holds the new list; otherwise the list itself is unchanged. */
  function Dispatch(a: App, act: Action): (r: Reply)
    ensures r.outcome.Saved? ==> r.app.stored == Some(r.app.tasks)
    ensures !r.outcome.Saved? ==> r.app.tasks == a.tasks && r.app.stored == a.stored
    ensures act.FilterAction? ==> r.app.filter == act.filter && r.outcome == Untouched
    ensures !act.FilterAction? ==> r.app.filter == a.filter
    ensures act.AddAction? ==>
      var step := AddTask(a.tasks, act.input, act.priority, act.id, act.createdAt);
      r.outcome == step.outcome && r.app.tasks == step.tasks
    ensures act.ToggleAction? ==>
      r.outcome == ToggleTask(a.tasks, act.id).outcome && r.app.tasks == ToggleTask(a.tasks, act.id).tasks
    ensures act.DeleteAction? ==>
      var step := DeleteTask(a.tasks, act.id, act.confirmed);
      r.outcome == step.outcome && r.app.tasks == step.tasks
    ensures act.EditAction? ==>
      r.outcome == EditTask(a.tasks, act.id, act.answer).outcome && r.app.tasks == EditTask(a.tasks, act.id, act.answer).tasks
  {
    match act
    case FilterAction(f) => Reply(a.(filter := f), Untouched)
    case _ =>
      var step := match act
        case AddAction(input, priority, id, createdAt) => AddTask(a.tasks, input, priority, id, createdAt)
        case ToggleAction(id) => ToggleTask(a.tasks, id)
        case DeleteAction(id, confirmed) => DeleteTask(a.tasks, id, confirmed)
        case EditAction(id, answer) => EditTask(a.tasks, id, answer);
      var stored := if step.outcome.Saved? then Some(step.tasks) else a.stored;
      Reply(App(step.tasks, a.filter, stored), step.outcome)
  }

  /** The state after a sequence of actions, in order. */
  function Run(a: App, acts: seq<Action>): (r: App)
    decreases |acts|
  {
    if acts == [] then a else Run(Dispatch(a, acts[0]).app, acts[1..])
  }

  /** Starting from any saved snapshot, after any sequence of actions the
      page still shows exactly what a reload would show. */
  lemma {:induction false} RunKeepsSynced(a: App, acts: seq<Action>)
    requires Synced(a)
    ensures Synced(Run(a, acts))
    decreases |acts|
  {
    if acts != [] {
      RunKeepsSynced(Dispatch(a, acts[0]).app, acts[1..]);
    }
  }

  /** A session that starts from any saved snapshot and performs any
      sequence of actions leaves the slot holding exactly the list it shows:
      reloading the page shows that same list. */
  lemma {:induction false} ReloadShowsSession(stored: Option<seq<Task>>, acts: seq<Action>)
    ensures Load(Run(Load(stored), acts).stored).tasks == Run(Load(stored), acts).tasks
  {
    RunKeepsSynced(Load(stored), acts);
  }

  /** The rows the page renders: the current filter's view. */
  function Visible(a: App): (r: seq<Task>)
    ensures forall k :: 0 <= k < |r| ==> r[k] in a.tasks && Shows(a.filter, r[k])
    ensures forall k :: 0 <= k < |a.tasks| && Shows(a.filter, a.tasks[k]) ==> a.tasks[k] in r
    ensures IsSubsequence(r, a.tasks)
  {
    ViewKeepsOrder(a.tasks, a.filter);
    View(a.tasks, a.filter)
  }

  /** `filterTasks` changes what is shown but never the list or the saved snapshot. */
  lemma FilterChangesOnlyFilter(a: App, f: string)
    ensures Dispatch(a, FilterAction(f)).app == a.(filter := f)
    ensures Visible(Dispatch(a, FilterAction(f)).app) == View(a.tasks, f)
    ensures ComputeStats(Dispatch(a, FilterAction(f)).app.tasks) == ComputeStats(a.tasks)
  {
  }

  /** Every action keeps task texts trimmed and non-empty. */
  lemma DispatchKeepsCleanTexts(a: App, act: Action)
    requires CleanTexts(a.tasks)
    ensures CleanTexts(Dispatch(a, act).app.tasks)
  {
    match act
    case AddAction(input, priority, id, createdAt) => AddKeepsCleanTexts(a.tasks, input, priority, id, createdAt);
    case EditAction(id, answer) => EditKeepsCleanTexts(a.tasks, id, answer);
    case ToggleAction(id) => ToggleKeepsCleanTexts(a.tasks, id);
    case DeleteAction(id, confirmed) => DeleteKeepsCleanTexts(a.tasks, id, confirmed);
    case FilterAction(_) =>
  }

  /** Every text within `addTask`'s 50-unit limit. */
  predicate WithinLimit(tasks: seq<Task>) {
    forall k :: 0 <= k < |tasks| ==> Utf16Length(tasks[k].text) <= MaxTextLength
  }

  /** Every action but an edit keeps all texts within the limit. */
  lemma DispatchKeepsLimit(a: App, act: Action)
    requires WithinLimit(a.tasks)
    requires !act.EditAction?
    ensures WithinLimit(Dispatch(a, act).app.tasks)
  {
  }

  /** The ids of the list, in order. */
  function Ids(tasks: seq<Task>): seq<int> {
    seq(|tasks|, k requires 0 <= k < |tasks| => tasks[k].id)
  }

  /** Ids stay unique under every action, provided a new task's id (the
      clock reading) is not already in use. */
  lemma DispatchKeepsUniqueIds(a: App, act: Action)
    requires UniqueIds(a.tasks)
    requires act.AddAction? ==> !HasId(a.tasks, act.id)
    ensures UniqueIds(Dispatch(a, act).app.tasks)
  {
    var r := Dispatch(a, act).app.tasks;
    match act
    case DeleteAction(id, confirmed) =>
      if confirmed {
        var p := (x: Task) => x.id != id;
        KeepIsSubsequence(a.tasks, p);
        SubsequenceKeepsUniqueIds(r, a.tasks);
      }
    case AddAction(_, _, _, _) =>
      if r != a.tasks {
        forall i, j | 0 <= i < j < |r|
          ensures r[i].id != r[j].id
        {
          assert r[j] == a.tasks[j - 1];
          if i > 0 {
            assert r[i] == a.tasks[i - 1];
          }
        }
      }
    case _ =>
      assert Ids(r) == Ids(a.tasks);
  }

  /** A subsequence of a list with unique ids has unique ids. */
  lemma {:induction false} SubsequenceKeepsUniqueIds(r: seq<Task>, s: seq<Task>)
    requires IsSubsequence(r, s)
    requires UniqueIds(s)
    ensures UniqueIds(r)
    decreases |s|
  {
    if r != [] {
      assert UniqueIds(s[1..]) by {
        forall i, j | 0 <= i < j < |s[1..]|
          ensures s[1..][i].id != s[1..][j].id
        {
          assert s[1..][i] == s[i + 1] && s[1..][j] == s[j + 1];
        }
      }
      if r[0] == s[0] && IsSubsequence(r[1..], s[1..]) {
        SubsequenceKeepsUniqueIds(r[1..], s[1..]);
        SubsequenceMembers(r[1..], s[1..]);
        forall j | 1 <= j < |r|
          ensures r[0].id != r[j].id
        {
          assert r[1..][j - 1] == r[j];
          var m :| 0 <= m < |s[1..]| && s[1..][m] == r[j];
          assert s[m + 1] == r[j];
        }
        forall i, j | 0 <= i < j < |r|
          ensures r[i].id != r[j].id
        {
          if i > 0 {
            assert r[1..][i - 1] == r[i] && r[1..][j - 1] == r[j];
          }
        }
      } else {
        SubsequenceKeepsUniqueIds(r, s[1..]);
      }
    }
  }
}

=== FILE: wrappers.dfy ===
/** The Option datatype used for values a caller may or may not supply. */
module Wrappers {

  /** Some value, or none (a cancelled prompt, an empty storage slot, a missing task). */
  datatype Option<+T> = None | Some(value: T) {

    /** The value in Some, or the given default when None. */
    function GetOr(default: T): T {
      match this
      case Some(v) => v
      case None => default
    }
  }
}
